=== FILE: README.md ===
# Product table pipeline — a Dafny model

This project models the logic of a small React page that lists products in a
filterable, sortable table. The page holds three static datasets: users,
categories and products. Its logic has four parts:

- **Join.** Each product gets its category, and that category gets its owning
  user (`productsUprepared`, `src/App.jsx:10-17`).
- **`prepareProducts`.** The joined rows pass three filters: search text, user
  and category. Then they may be sorted by the selected column, and then
  reversed when the order is `'desk'` (`src/App.jsx:19-71`).
- **Sort header handler.** `updateSortOrder` moves the order through the
  cycle `'' -> 'ask' -> 'desk' -> ''` and picks the column
  (`src/App.jsx:96-117`).
- **Category handlers.** `updateCategoriesFilter` toggles a category id in the
  selected list, and `resetFilters` clears all filters
  (`src/App.jsx:90-94`, `119-137`).

Modules, one per file:

| file | module | what it holds |
|---|---|---|
| `wrappers.dfy` | `Wrappers` | `Option` and `Result` |
| `sequences.dfy` | `Sequences` | `indexOf`, `splice(k, 1)`, `reverse`, the subsequence relation |
| `text.dfy` | `Text` | `toLowerCase` (ASCII letters), `trim`, `includes` |
| `sorting.dfy` | `Sorting` | `Array.prototype.sort` with a comparator: consistency, sortedness, stability, uniqueness |
| `catalog.dfy` | `Catalog` | users, categories, products, joined rows, the join |
| `pipeline.dfy` | `Pipeline` | the filters, the column comparator, `prepareProducts` |
| `handlers.dfy` | `Handlers` | the component state, `resetFilters`, `updateSortOrder`, `updateCategoriesFilter` |
| `scenarios.dfy` | `Scenarios` | a worked search on two products |

Points where the model takes a position:

- **The join fails explicitly.** The source dereferences `undefined` when a
  product's category is missing (`src/App.jsx:14`). When the category's owner
  is missing, it silently attaches `undefined`, and the page breaks later,
  when it reads `user.id`, `user.name` or `user.sex`. The model returns
  `Failure(MissingCategory(..))` or `Failure(MissingOwner(..))` instead.
  The error is reported for the first product, in product order, whose
  references do not resolve. Both lookups keep `find` semantics: the
  *first* record with a matching id is chosen.
- **`localeCompare` is a parameter.** It is passed in as
  `locale: (string, string) -> int`. The functions work for any `locale`.
  The ordering lemmas assume it is a consistent comparator
  (`Sorting.Consistent`), as the language standard asks of a sort
  comparator.
- **Sorting is a stable insertion sort.** For a consistent comparator there is
  exactly one ordered permutation that keeps tied elements in input order.
  `Sorting.SortCharacterized` proves this, so the insertion sort gives the
  same result as the engine's stable sort.
- **The comparator falls back to ids.** Every sort key other than `name`,
  `category` and `user` compares by id difference. This includes `id` and
  `product`, which are the keys the column headers actually send
  (`src/App.jsx:252-261`). So clicking the "Product" header orders by id, not
  by name. The initial state (`sortBy = 'id'`, `sortOrder = ''`) already
  shows the products sorted by ascending id.
- **Switching columns does not restart the cycle.** The order advances
  whichever column is clicked. Clicking a new column while the order is
  `'ask'` gives `'desk'` on that column, not `'ask'`. The code is followed
  here, and `Handlers.OrderIgnoresColumn` states it.
- **The user filter treats 0 and negatives as "all".** It runs only when
  `filterUserId` is truthy and above -1. So 0, the sentinel -1 and every
  other negative id all select every user.
- **A blank search keeps everything.** The search is lower-cased and then
  trimmed. A search made only of white space is truthy, so the text filter
  runs. But its needle trims to `""`, which every name contains.

## Model

| member | source | states |
|---|---|---|
| Catalog.Find | src/App.jsx:11-14 | `find` by id, used for both the category and the owner: returns nothing exactly when no record has the id; otherwise returns the first record in the list with that id |
| Catalog.FirstWithUnique | src/App.jsx:11-14 | a list has at most one first record with a given id, so the `find` result is determined |
| Catalog.Enrich | src/App.jsx:11-16 | a joined row keeps the product's fields and carries the first category with its `categoryId` and the first user with that category's `ownerId`; a missing category gives `MissingCategory` for that product and nothing else does; any `MissingCategory` names this product and its category id; a `MissingOwner` names the first matching category, whose owner is absent |
| Catalog.EnrichReportsMissingOwner | src/App.jsx:11-14 | when the product's category resolves but that category's owner does not, the join of the product fails with `MissingOwner` of that category |
| Catalog.EnrichSucceedsIff | src/App.jsx:11-16 | one product can be joined exactly when its category exists and that category's owner exists |
| Catalog.JoinedUnique | src/App.jsx:10-17 | the join relation fixes the row: two rows joined from the same product and datasets are equal |
| Catalog.Join | src/App.jsx:10-17 | on success, one row per product in product order, each joined by first-match lookups; success exactly when every product can be joined; a failure carries the error of the first product that cannot be joined |
| Sequences.IndexOf | src/App.jsx:128-129 | nothing exactly when the value is absent; otherwise the position of its first occurrence |
| Sequences.Reverse | src/App.jsx:67 | element `i` of the result is element `n-1-i` of the input; same length and same elements with the same counts |
| Sequences.RemoveAt | src/App.jsx:131 | `splice(k, 1)` shortens the list by one; elements before `k` stay where they are, and elements after `k` move down one place |
| Sequences.RemoveAtCount | src/App.jsx:131 | `splice(k, 1)` removes exactly one copy of the element at `k` |
| Sequences.RemoveAtDropsValue | src/App.jsx:131 | on a list without repeats, `splice(k, 1)` removes the value at `k` entirely and leaves a list without repeats |
| Sequences.RemoveAtKeepsOthers | src/App.jsx:131 | a value other than the one at `k` is in the result of `splice(k, 1)` exactly when it is in the input |
| Sequences.RemoveAtWithout | src/App.jsx:131 | `splice(k, 1)` keeps every other element in its relative order |
| Text.Lower | src/App.jsx:30-33 | `toLowerCase` keeps the length and maps every character by the character rule below |
| Text.LowerChar | src/App.jsx:33 | the result is never an upper-case ASCII letter; an upper-case letter moves 32 code points down to its lower-case letter; every other character is unchanged |
| Text.LowerIdempotent | src/App.jsx:30 | lower-casing twice equals lower-casing once; white space is left alone |
| Text.Trim | src/App.jsx:30 | the input splits into a white-space run, the result, and a white-space run; the result neither starts nor ends with white space; the result is empty exactly when the input is all white space |
| Text.TrimKeeps | src/App.jsx:30 | a string that neither starts nor ends with white space comes back from `trim` unchanged |
| Text.TrimIdempotent | src/App.jsx:30 | trimming twice equals trimming once |
| Text.Contains | src/App.jsx:35 | true exactly when the needle occurs at some position of the string |
| Sorting.Sort | src/App.jsx:52-63 | the sort returns a permutation of its input |
| Sorting.SortOrderedAndStable | src/App.jsx:52-63 | with a consistent comparator the output is ordered, and every group of tied elements keeps its input order |
| Sorting.SortCharacterized | src/App.jsx:52-63 | a sequence equals the sort's output exactly when it is ordered and has the input's tie groups in input order |
| Sorting.SortIdempotent | src/App.jsx:52-63 | sorting an already ordered sequence leaves it unchanged |
| Sorting.ReverseSorted | src/App.jsx:66-68 | reversing an ascending sequence gives a descending one |
| Pipeline.CriterionMeaning | src/App.jsx:32-48 | the three filter callbacks (`Passes`): the lower-cased name has the needle at some position; the row's user has the selected id; the row's category id is one of the list's entries |
| Pipeline.SearchFilterOn | src/App.jsx:29-30 | the guard of the search filter (`ActiveCriteria`): the filter on the trimmed, lower-cased search is on exactly when the search string is non-empty |
| Pipeline.FiltersOn | src/App.jsx:39-49 | the other guards (`ActiveCriteria`): the user filter is on exactly for a positive `filterUserId`, so 0 and -1 both mean "all"; the category filter is on exactly for a non-empty list; no other filter is ever on |
| Pipeline.FilterRows | src/App.jsx:32-48 | a filter pass returns an order-preserving subsequence whose rows all pass the criteria |
| Pipeline.FilterRowsCount | src/App.jsx:32-48 | a filter pass keeps every copy of a passing row and drops every copy of any other |
| Pipeline.FilterRowsTwice | src/App.jsx:29-49 | filtering by one set of criteria and then another equals filtering once by both |
| Pipeline.Stages | src/App.jsx:27-49 | running the active filters one pass after another, as the source does, equals one pass that requires all of them |
| Pipeline.SelectedIff | src/App.jsx:29-49 | a row survives exactly when: its lower-cased name contains the trimmed, lower-cased search (if the search is non-empty); its user id equals `filterUserId` (if `filterUserId` > 0); its category id is in the list (if the list is non-empty) |
| Pipeline.Compare | src/App.jsx:52-63 | the comparator of the `sort` call (`Order` is it as a function value): for `name`, `category` and `user` it is `localeCompare` on that column's text; for any other key its sign is the order of the product ids |
| Pipeline.OrderConsistent | src/App.jsx:52-63 | each column comparator is consistent when `localeCompare` is; the id comparator always is |
| Pipeline.Prepare | src/App.jsx:19-71 | the result holds exactly the input rows that pass the active filters, each as many times as in the input |
| Pipeline.NothingActiveIsIdentity | src/App.jsx:27-70 | with no search, `filterUserId` <= 0, no categories, no sort key and an order other than `'desk'`, the output equals the input |
| Pipeline.BlankSearchKeepsAll | src/App.jsx:29-36 | a search made only of white space gives the same output as an empty search |
| Pipeline.DescendingIsReverse | src/App.jsx:66-68 | the `'desk'` output is exactly the reverse of the output for any other order, with or without a sort key |
| Pipeline.UnsortedKeepsInputOrder | src/App.jsx:27-68 | without a sort key the survivors keep their input order (reversed under `'desk'`) |
| Pipeline.SortedBySelectedColumn | src/App.jsx:51-68 | with a sort key the output is ordered by the column comparator, descending under `'desk'`; for any other order, products the comparator ties keep their input order |
| Pipeline.SortedResultCharacterized | src/App.jsx:51-64 | any arrangement of the survivors that is ordered by the column comparator and keeps tie groups in input order is the output |
| Pipeline.OtherKeysSortById | src/App.jsx:53-62 | any key other than `name`, `category` and `user` gives the same output as `id`, and that output is in ascending id order |
| Pipeline.PrepareIdempotent | src/App.jsx:19-71 | preparing an already prepared list again with the same settings (order other than `'desk'`) changes nothing |
| Handlers.Initial | src/App.jsx:74-79 | the initial state has no filter on (user `-1`, no categories, empty search); its sort key selects the id comparator, and its order is `''`, the first step of the order cycle |
| Handlers.View | src/App.jsx:81-88 | the rendered list holds exactly the products that pass the state's filters, each as often as in the input |
| Handlers.InitialViewSortedById | src/App.jsx:74-88 | the initial view lists every product, as often as in the input, in ascending id order |
| Handlers.ResetFilters | src/App.jsx:90-94 | after a reset no filter is active, and the sort key and order are kept |
| Handlers.ResetShowsEverything | src/App.jsx:90-94 | after a reset every product is shown, in input order when there is no sort key and the order is not `'desk'` |
| Handlers.UpdateSortOrder | src/App.jsx:96-117 | the order moves one step along `'' -> 'ask' -> 'desk' -> ''` and an unknown order becomes `''`; the new key is the clicked column, or `''` when the order becomes `''`; the filters are unchanged |
| Handlers.FirstClickAscends | src/App.jsx:79-106 | the first header click after load sorts the clicked column ascending (`'ask'`) |
| Handlers.SortOrderPeriodThree | src/App.jsx:101-116 | three clicks on any columns bring a valid order back to its start, and the order never repeats sooner |
| Handlers.OrderIgnoresColumn | src/App.jsx:96-117 | which column is clicked does not affect the new order |
| Handlers.LeavingDescendingUnsorts | src/App.jsx:110-113 | the click that leaves `'desk'` shows the filtered products in input order |
| Handlers.ToggleCategory | src/App.jsx:119-136 | a falsy argument clears the list; an absent id is appended; a present id has its first occurrence spliced out; the order of all other ids is unchanged |
| Handlers.UpdateCategoriesFilter | src/App.jsx:119-137 | only the category list changes, and it changes by the toggle |
| Handlers.ToggleFlipsMembership | src/App.jsx:126-136 | on a list without repeats, a truthy click flips the clicked id's membership, leaves every other id's membership alone, and keeps the list free of repeats |
| Handlers.ToggleTwiceSameIds | src/App.jsx:126-136 | on a list without repeats, two clicks on the same id give back the same set of ids |
| Handlers.ToggleTwiceRestores | src/App.jsx:126-136 | when the id was absent, two clicks give back the very same list |
| Scenarios.SearchExample | src/App.jsx:29-36 | searching "app" among "Apple" and "banana" keeps only "Apple" |

## Left out

- Rendering (`src/App.jsx:139-319`): markup, class names, icons, colours and `data-cy` attributes only present data.
- The `useState` wiring is not modelled. The handlers are pure transitions over an explicit `ViewState`. The one-line click handlers that only set a value (user tabs, "All users", the search field and its clear button) are not modelled separately.
- The `./api/*` datasets are not part of this model. Users, categories and products are parameters.
- `localeCompare` is an ICU collation. It is taken as a parameter, and the ordering lemmas require it to be a consistent comparator.
- `toLowerCase` is modelled on ASCII letters only. Full Unicode case mapping, which can change a string's length, is not modelled.
- `trim` removes the ECMAScript white-space and line-terminator code points. The `Zs` set is the one current at the time of writing.
- Ids are unbounded integers. JavaScript numbers are doubles, which are exact for integers up to 2^53, so `a.id - b.id` and the id comparisons agree within that range. `NaN` ids are not modelled.
- `Catalog.Join`: a missing owner gives `MissingOwner` rather than a row with an `undefined` user. The source fails only later, when it reads that user.
- `Handlers.ResetFilters`: the category list is reset to the empty list, while the source sets the string `''`. Both mean "no category filter" in `prepareProducts`.
- `Sorting.Sort` is an insertion sort. With a comparator that is not consistent, the engine's result is implementation-defined, and the model's sort is only one possible outcome.
- The copy `[...products]` (`src/App.jsx:27`) has no effect on pure sequences, so it is not modelled.

=== FILE: catalog.dfy ===
/** The three datasets and the load-time join that gives every product its
    category and that category's owner (`productsUprepared`). */
module Catalog {
  import opened Wrappers
  import opened Sequences

  datatype Sex = Male | Female

  datatype User = User(id: int, name: string, sex: Sex)

  datatype Category = Category(id: int, title: string, icon: string, ownerId: int)

  datatype Product = Product(id: int, name: string, categoryId: int)

  /** A product with its category and owning user attached, as the object
      spread `{ ...product, user, category }` builds it. */
  datatype ProductRow = ProductRow(id: int, name: string, categoryId: int, user: User, category: Category)
  {
    /** The product fields of the row. */
    function Base(): Product {
      Product(id, name, categoryId)
    }
  }

  /** A reference between the datasets that does not resolve. */
  datatype IntegrityError =
    | MissingCategory(productId: int, categoryId: int)
    | MissingOwner(categoryId: int, ownerId: int)

  /** The key of a category and of a user: the `id` the join matches on. */
  function CategoryKey(c: Category): int { c.id }

  function UserKey(u: User): int { u.id }

  /** The keys of a dataset, in dataset order. */
  function Keys<T>(s: seq<T>, key: T -> int): (ids: seq<int>)
    ensures |ids| == |s|
    ensures forall i :: 0 <= i < |s| ==> ids[i] == key(s[i])
  {
    seq(|s|, i requires 0 <= i < |s| => key(s[i]))
  }

  /** `x` is the first record of `s` whose key is `id`. */
  ghost predicate FirstWith<T>(s: seq<T>, key: T -> int, id: int, x: T) {
    exists k :: IsFirstIndex(Keys(s, key), id, k) && s[k] == x
  }

  /** There is at most one first match. */
  lemma FirstWithUnique<T>(s: seq<T>, key: T -> int, id: int, x: T, y: T)
    requires FirstWith(s, key, id, x) && FirstWith(s, key, id, y)
    ensures x == y
  {
    var k :| IsFirstIndex(Keys(s, key), id, k) && s[k] == x;
    var m :| IsFirstIndex(Keys(s, key), id, m) && s[m] == y;
  }

  /** `s.find(({ id }) => id === wanted)`: the first record with the key,
      `None` where the source gets `undefined`. */
  function Find<T>(s: seq<T>, key: T -> int, id: int): (r: Option<T>)
    ensures r.None? <==> id !in Keys(s, key)
    ensures r.Some? ==> FirstWith(s, key, id, r.value) && key(r.value) == id
  {
    match IndexOf(Keys(s, key), id)
    case None => None
    case Some(k) => Some(s[k])
  }

  /** `row` is product `p` joined with the first category carrying its
      `categoryId` and the first user carrying that category's `ownerId`. */
  ghost predicate Joined(p: Product, cs: seq<Category>, us: seq<User>, row: ProductRow) {
    && row.Base() == p
    && FirstWith(cs, CategoryKey, p.categoryId, row.category)
    && FirstWith(us, UserKey, row.category.ownerId, row.user)
  }

  /** A product determines its joined row. */
  lemma JoinedUnique(p: Product, cs: seq<Category>, us: seq<User>, a: ProductRow, b: ProductRow)
    requires Joined(p, cs, us, a) && Joined(p, cs, us, b)
    ensures a == b
  {
    FirstWithUnique(cs, CategoryKey, p.categoryId, a.category, b.category);
    FirstWithUnique(us, UserKey, a.category.ownerId, a.user, b.user);
  }

  /** The join of one product. */
  function Enrich(p: Product, cs: seq<Category>, us: seq<User>): (r: Result<ProductRow, IntegrityError>)
    ensures r.Success? ==> Joined(p, cs, us, r.value)
    ensures r == Failure(MissingCategory(p.id, p.categoryId)) <==> p.categoryId !in Keys(cs, CategoryKey)
    ensures r.Failure? && r.error.MissingCategory? ==> r.error == MissingCategory(p.id, p.categoryId)
    ensures r.Failure? && r.error.MissingOwner? ==>
      exists c :: FirstWith(cs, CategoryKey, p.categoryId, c) && c.ownerId !in Keys(us, UserKey)
        && r.error == MissingOwner(c.id, c.ownerId)
  {
    match Find(cs, CategoryKey, p.categoryId)
    case None => Failure(MissingCategory(p.id, p.categoryId))
    case Some(c) =>
      match Find(us, UserKey, c.ownerId)
      case None => Failure(MissingOwner(c.id, c.ownerId))
      case Some(u) => Success(ProductRow(p.id, p.name, p.categoryId, u, c))
  }

  /** A resolved category whose owner is absent is reported as
      `MissingOwner` of that category. */
  lemma EnrichReportsMissingOwner(p: Product, cs: seq<Category>, us: seq<User>, c: Category)
    requires FirstWith(cs, CategoryKey, p.categoryId, c) && c.ownerId !in Keys(us, UserKey)
    ensures Enrich(p, cs, us) == Failure(MissingOwner(c.id, c.ownerId))
  {
    var found := Find(cs, CategoryKey, p.categoryId);
    FirstWithUnique(cs, CategoryKey, p.categoryId, c, found.value);
  }

  /** A product can be joined exactly when its category exists and that
      category's owner exists. */
  lemma EnrichSucceedsIff(p: Product, cs: seq<Category>, us: seq<User>)
    ensures Enrich(p, cs, us).Success? <==>
      && p.categoryId in Keys(cs, CategoryKey)
      && forall c :: FirstWith(cs, CategoryKey, p.categoryId, c) ==> c.ownerId in Keys(us, UserKey)
  {
    var r := Find(cs, CategoryKey, p.categoryId);
    if r.Some? {
      forall c | FirstWith(cs, CategoryKey, p.categoryId, c)
        ensures c == r.value
      {
        FirstWithUnique(cs, CategoryKey, p.categoryId, c, r.value);
      }
    }
  }

  /** `productsFromServer.map(...)`: one joined row per product, in product
      order; the first product whose references do not resolve stops the
      join with its error. */
  function Join(products: seq<Product>, cs: seq<Category>, us: seq<User>): (r: Result<seq<ProductRow>, IntegrityError>)
    ensures r.Success? ==> |r.value| == |products|
    ensures r.Success? ==> forall i :: 0 <= i < |products| ==> Joined(products[i], cs, us, r.value[i])
    ensures r.Success? <==> forall i :: 0 <= i < |products| ==> Enrich(products[i], cs, us).Success?
    ensures r.Failure? ==>
      exists i :: (0 <= i < |products| && Enrich(products[i], cs, us) == Failure(r.error)
                   && forall j :: 0 <= j < i ==> Enrich(products[j], cs, us).Success?)
  {
    if products == [] then Success([])
    else
      match Enrich(products[0], cs, us)
      case Failure(e) =>
        assert Enrich(products[0], cs, us) == Failure(e);
        Failure(e)
      case Success(row) =>
        match Join(products[1..], cs, us)
        case Failure(e) =>
          ghost var i :| 0 <= i < |products[1..]| && Enrich(products[1..][i], cs, us) == Failure(e)
            && forall j :: 0 <= j < i ==> Enrich(products[1..][j], cs, us).Success?;
          assert Enrich(products[i + 1], cs, us) == Failure(e);
          Failure(e)
        case Success(rows) => Success([row] + rows)
  }
}

=== FILE: handlers.dfy ===
/** The `App` component's state and its click handlers, as pure transitions
    over an explicit state record. */
module Handlers {
  import opened Wrappers
  import opened Sequences
  import opened Catalog
  import opened Pipeline

  /** The five `useState` values of the component. */
  datatype ViewState = ViewState(
    filterUserId: int,
    filterCategoryIds: seq<int>,
    searchQuery: string,
    sortBy: string,
    sortOrder: string)

  /** The initial state: all users, all categories, no search, so no filter
      is on; the key `id` with no order mark, so the view is sorted by
      ascending id. */
  function Initial(): (r: ViewState)
    ensures ActiveCriteria(r.searchQuery, r.filterUserId, r.filterCategoryIds) == []
    ensures r.sortBy != "" && !IsTextKey(r.sortBy)
    ensures OrderStep(r.sortOrder) == 0
    ensures r.filterUserId == -1
  {
    ViewState(-1, [], "", "id", "")
  }

  /** The product list the component renders for state `st`: exactly the
      products that pass the state's filters, each once per occurrence. */
  function View(st: ViewState, rows: seq<ProductRow>, locale: (string, string) -> int): (r: seq<ProductRow>)
    ensures forall row :: row in r <==>
      row in rows && PassesAll(row, ActiveCriteria(st.searchQuery, st.filterUserId, st.filterCategoryIds))
    ensures multiset(r) == multiset(FilterRows(rows, ActiveCriteria(st.searchQuery, st.filterUserId, st.filterCategoryIds)))
  {
    Prepare(rows, st.searchQuery, st.filterUserId, st.filterCategoryIds, st.sortBy, st.sortOrder, locale)
  }

  /** The initial view lists every product, as often as in the input, in
      ascending id order. */
  lemma InitialViewSortedById(rows: seq<ProductRow>, locale: (string, string) -> int)
    ensures var r := View(Initial(), rows, locale);
      && multiset(r) == multiset(rows)
      && forall i, j :: 0 <= i < j < |r| ==> r[i].id <= r[j].id
  {
    FilterRowsKeepsAll(rows, []);
    OtherKeysSortById(rows, "", -1, [], "id", "", locale);
  }

  /** `resetFilters`: every filter back to "all"; the sort is kept. The
      category list becomes the empty list. */
  function ResetFilters(st: ViewState): (r: ViewState)
    ensures r.sortBy == st.sortBy && r.sortOrder == st.sortOrder
    ensures ActiveCriteria(r.searchQuery, r.filterUserId, r.filterCategoryIds) == []
  {
    st.(filterUserId := -1, filterCategoryIds := [], searchQuery := "")
  }

  /** After a reset every product is shown again, and in input order when
      no sort key is set and the order is not descending. */
  lemma ResetShowsEverything(st: ViewState, rows: seq<ProductRow>, locale: (string, string) -> int)
    ensures multiset(View(ResetFilters(st), rows, locale)) == multiset(rows)
    ensures st.sortBy == "" && st.sortOrder != "desk" ==> View(ResetFilters(st), rows, locale) == rows
  {
    FilterRowsKeepsAll(rows, []);
  }

  /** Position of a sort order in the cycle '' -> 'ask' -> 'desk' -> ''. */
  function OrderStep(sortOrder: string): int {
    if sortOrder == "" then 0 else if sortOrder == "ask" then 1 else if sortOrder == "desk" then 2 else -1
  }

  predicate ValidOrder(sortOrder: string) {
    OrderStep(sortOrder) >= 0
  }

  /** `updateSortOrder(clicked)`: the queued setters run in order, so the
      `setSortBy('')` of the reset branch overrides the earlier
      `setSortBy(clicked)`. The order advances one step along its cycle
      whichever column is clicked; an unknown order falls back to ''. The
      key becomes the clicked column, unless the order falls back to '',
      where it is cleared. Nothing else changes. */
  function UpdateSortOrder(st: ViewState, clicked: string): (r: ViewState)
    ensures ValidOrder(r.sortOrder)
    ensures ValidOrder(st.sortOrder) ==> OrderStep(r.sortOrder) == (OrderStep(st.sortOrder) + 1) % 3
    ensures !ValidOrder(st.sortOrder) ==> r.sortOrder == ""
    ensures r.sortBy == (if r.sortOrder == "" then "" else clicked)
    ensures r.(sortBy := st.sortBy, sortOrder := st.sortOrder) == st
  {
    if st.sortOrder == "" then st.(sortBy := clicked, sortOrder := "ask")
    else if st.sortOrder == "ask" then st.(sortBy := clicked, sortOrder := "desk")
    else st.(sortBy := "", sortOrder := "")
  }

  /** The first header click after load sorts that column ascending. */
  lemma FirstClickAscends(clicked: string)
    ensures UpdateSortOrder(Initial(), clicked).sortOrder == "ask"
    ensures UpdateSortOrder(Initial(), clicked).sortBy == clicked
  {
  }

  /** Three clicks, on any columns, bring a valid order back to where it
      started, and the order does not repeat earlier. */
  lemma SortOrderPeriodThree(st: ViewState, c1: string, c2: string, c3: string)
    requires ValidOrder(st.sortOrder)
    ensures var s1 := UpdateSortOrder(st, c1);
      var s2 := UpdateSortOrder(s1, c2);
      var s3 := UpdateSortOrder(s2, c3);
      && s1.sortOrder != st.sortOrder && s2.sortOrder != st.sortOrder && s2.sortOrder != s1.sortOrder
      && s3.sortOrder == st.sortOrder
  {
  }

  /** Which column is clicked does not affect the new order: clicking a
      different column while ascending goes on to 'desk' rather than
      starting that column at 'ask'. */
  lemma OrderIgnoresColumn(st: ViewState, c1: string, c2: string)
    ensures UpdateSortOrder(st, c1).sortOrder == UpdateSortOrder(st, c2).sortOrder
  {
  }

  /** The click that leaves 'desk' clears the sort: the view shows the
      filtered products in input order. */
  lemma LeavingDescendingUnsorts(st: ViewState, clicked: string, rows: seq<ProductRow>, locale: (string, string) -> int)
    requires st.sortOrder == "desk"
    ensures View(UpdateSortOrder(st, clicked), rows, locale)
         == FilterRows(rows, ActiveCriteria(st.searchQuery, st.filterUserId, st.filterCategoryIds))
  {
  }

  /** An argument `!categoryIndex` treats as false: a missing argument (the
      "All" button) or id 0. */
  predicate Falsy(arg: Option<int>) {
    arg.None? || arg.value == 0
  }

  /** The category list after clicking category `arg`: cleared for a falsy
      argument; otherwise the first occurrence of the id is spliced out
      when present, or the id is appended when absent. */
  function ToggleCategory(ids: seq<int>, arg: Option<int>): (r: seq<int>)
    ensures Falsy(arg) ==> r == []
    ensures !Falsy(arg) && arg.value !in ids ==> r == ids + [arg.value]
    ensures !Falsy(arg) && arg.value in ids ==> multiset(r) == multiset(ids) - multiset{arg.value}
    ensures !Falsy(arg) && arg.value in ids ==>
      exists k :: IsFirstIndex(ids, arg.value, k) && r == ids[..k] + ids[k + 1..]
    ensures !Falsy(arg) ==> Without(r, arg.value) == Without(ids, arg.value)
  {
    if Falsy(arg) then []
    else
      match IndexOf(ids, arg.value)
      case Some(k) =>
        RemoveAtCount(ids, k);
        RemoveAtWithout(ids, k);
        RemoveAt(ids, k)
      case None =>
        WithoutConcat(ids, [arg.value], arg.value);
        ids + [arg.value]
  }

  /** `updateCategoriesFilter(arg)`: only the category list changes. */
  function UpdateCategoriesFilter(st: ViewState, arg: Option<int>): (r: ViewState)
    ensures r.(filterCategoryIds := st.filterCategoryIds) == st
    ensures r.filterCategoryIds == ToggleCategory(st.filterCategoryIds, arg)
  {
    st.(filterCategoryIds := ToggleCategory(st.filterCategoryIds, arg))
  }

  /** On a list without repeats a truthy click flips the membership of its
      id, leaves every other id where it was, and keeps the list free of
      repeats. */
  lemma ToggleFlipsMembership(ids: seq<int>, arg: Option<int>)
    requires NoDuplicates(ids) && !Falsy(arg)
    ensures var r := ToggleCategory(ids, arg);
      && NoDuplicates(r)
      && (arg.value in r <==> arg.value !in ids)
      && forall x :: x != arg.value ==> (x in r <==> x in ids)
  {
    var c := arg.value;
    var r := ToggleCategory(ids, arg);
    match IndexOf(ids, c)
    case Some(k) =>
      assert r == RemoveAt(ids, k);
      RemoveAtDropsValue(ids, k);
      forall x | x != c
        ensures x in r <==> x in ids
      {
        RemoveAtKeepsOthers(ids, k, x);
      }
    case None =>
  }

  /** Two truthy clicks on the same id give back the same set of ids. */
  lemma ToggleTwiceSameIds(ids: seq<int>, arg: Option<int>)
    requires NoDuplicates(ids) && !Falsy(arg)
    ensures var r := ToggleCategory(ToggleCategory(ids, arg), arg);
      forall x :: x in r <==> x in ids
  {
    ToggleFlipsMembership(ids, arg);
    ToggleFlipsMembership(ToggleCategory(ids, arg), arg);
  }

  /** When the id was absent, two clicks give back the very same list. */
  lemma ToggleTwiceRestores(ids: seq<int>, arg: Option<int>)
    requires !Falsy(arg) && arg.value !in ids
    ensures ToggleCategory(ToggleCategory(ids, arg), arg) == ids
  {
    var once := ids + [arg.value];
    assert RemoveAt(once, |ids|) == ids;
  }
}

=== FILE: pipeline.dfy ===
/** `prepareProducts`: the text, user and category filters, then the
    optional sort by the selected column, then the optional reversal. */
module Pipeline {
  import opened Sequences
  import opened Text
  import opened Sorting
  import opened Catalog

  /** One of the three filters. */
  datatype Criterion =
    | NameContains(needle: string)
    | OwnedBy(userId: int)
    | InCategories(categoryIds: seq<int>)

  predicate Passes(row: ProductRow, c: Criterion) {
    match c
    case NameContains(needle) => Contains(Lower(row.name), needle)
    case OwnedBy(userId) => row.user.id == userId
    case InCategories(ids) => row.category.id in ids
  }

  predicate PassesAll(row: ProductRow, cs: seq<Criterion>) {
    forall i :: 0 <= i < |cs| ==> Passes(row, cs[i])
  }

  /** Each filter callback on its own: the lower-cased name has the needle
      at some position; the row's user has the id; the row's category id
      is one of the list's entries. */
  lemma CriterionMeaning(row: ProductRow, c: Criterion)
    ensures c.NameContains? ==> (Passes(row, c) <==> exists i :: OccursAt(Lower(row.name), c.needle, i))
    ensures c.OwnedBy? ==> (Passes(row, c) <==> row.user.id == c.userId)
    ensures c.InCategories? ==>
      (Passes(row, c) <==> exists k :: 0 <= k < |c.categoryIds| && c.categoryIds[k] == row.category.id)
  {
  }

  lemma PassesAllConcat(row: ProductRow, a: seq<Criterion>, b: seq<Criterion>)
    ensures PassesAll(row, a + b) <==> PassesAll(row, a) && PassesAll(row, b)
  {
    if PassesAll(row, a) && PassesAll(row, b) {
      forall i | 0 <= i < |a + b|
        ensures Passes(row, (a + b)[i])
      {
        if i >= |a| {
          assert (a + b)[i] == b[i - |a|];
        }
      }
    }
    if PassesAll(row, a + b) {
      forall i | 0 <= i < |a|
        ensures Passes(row, a[i])
      {
        assert (a + b)[i] == a[i];
      }
      forall i | 0 <= i < |b|
        ensures Passes(row, b[i])
      {
        assert (a + b)[|a| + i] == b[i];
      }
    }
  }

  /** A single `filter` pass keeping the rows that pass every criterion in
      `cs`: an order-preserving subsequence of passing rows. */
  function FilterRows(rows: seq<ProductRow>, cs: seq<Criterion>): (r: seq<ProductRow>)
    ensures IsSubsequence(r, rows)
    ensures forall i :: 0 <= i < |r| ==> PassesAll(r[i], cs)
  {
    if rows == [] then []
    else
      var rest := FilterRows(rows[1..], cs);
      if PassesAll(rows[0], cs) then
        assert ([rows[0]] + rest)[1..] == rest;
        [rows[0]] + rest
      else rest
  }

  /** The pass keeps every copy of a passing row and no copy of any other. */
  lemma {:induction false} FilterRowsCount(rows: seq<ProductRow>, cs: seq<Criterion>, row: ProductRow)
    ensures multiset(FilterRows(rows, cs))[row] == if PassesAll(row, cs) then multiset(rows)[row] else 0
  {
    if rows != [] {
      FilterRowsCount(rows[1..], cs, row);
      assert rows == [rows[0]] + rows[1..];
    }
  }

  lemma FilterRowsMember(rows: seq<ProductRow>, cs: seq<Criterion>, row: ProductRow)
    ensures row in FilterRows(rows, cs) <==> row in rows && PassesAll(row, cs)
  {
    FilterRowsCount(rows, cs, row);
  }

  /** A filter every row passes keeps the sequence as it is. */
  lemma {:induction false} FilterRowsKeepsAll(rows: seq<ProductRow>, cs: seq<Criterion>)
    requires forall i :: 0 <= i < |rows| ==> PassesAll(rows[i], cs)
    ensures FilterRows(rows, cs) == rows
  {
    if rows != [] {
      FilterRowsKeepsAll(rows[1..], cs);
      assert rows == [rows[0]] + rows[1..];
    }
  }

  /** Criteria that accept the same rows filter alike. */
  lemma {:induction false} FilterRowsAgree(rows: seq<ProductRow>, cs: seq<Criterion>, ds: seq<Criterion>)
    requires forall i :: 0 <= i < |rows| ==> (PassesAll(rows[i], cs) <==> PassesAll(rows[i], ds))
    ensures FilterRows(rows, cs) == FilterRows(rows, ds)
  {
    if rows != [] {
      FilterRowsAgree(rows[1..], cs, ds);
    }
  }

  /** Filtering by `a` and then by `b` is filtering once by both. */
  lemma {:induction false} FilterRowsTwice(rows: seq<ProductRow>, a: seq<Criterion>, b: seq<Criterion>)
    ensures FilterRows(FilterRows(rows, a), b) == FilterRows(rows, a + b)
  {
    if rows != [] {
      var rest := FilterRows(rows[1..], a);
      FilterRowsTwice(rows[1..], a, b);
      PassesAllConcat(rows[0], a, b);
      if PassesAll(rows[0], a) {
        assert FilterRows(rows, a) == [rows[0]] + rest;
        assert ([rows[0]] + rest)[1..] == rest;
      } else {
        assert FilterRows(rows, a) == rest;
      }
    }
  }

  /** The filter passes run one after another, one per criterion, as
      `prepareProducts` runs them; together they keep exactly the rows that
      pass all criteria. */
  function Stages(rows: seq<ProductRow>, cs: seq<Criterion>): (r: seq<ProductRow>)
    ensures r == FilterRows(rows, cs)
    decreases |cs|
  {
    if cs == [] then
      FilterRowsKeepsAll(rows, cs);
      rows
    else
      FilterRowsTwice(rows, [cs[0]], cs[1..]);
      assert [cs[0]] + cs[1..] == cs;
      Stages(FilterRows(rows, [cs[0]]), cs[1..])
  }

  /** The user and category filters of `ActiveCriteria`, in that order. */
  function UserAndCategory(filterUserId: int, filterCategoryIds: seq<int>): seq<Criterion> {
    (if filterUserId != 0 && filterUserId > -1 then [OwnedBy(filterUserId)] else [])
    + (if |filterCategoryIds| > 0 then [InCategories(filterCategoryIds)] else [])
  }

  /** The filters `prepareProducts` turns on, in its order: the search text
      when the search string is truthy (non-empty), the user when
      `filterUserId` is truthy and above -1, the categories when the list
      is non-empty. */
  function ActiveCriteria(search: string, filterUserId: int, filterCategoryIds: seq<int>): seq<Criterion> {
    (if search != "" then [NameContains(Trim(Lower(search)))] else [])
    + UserAndCategory(filterUserId, filterCategoryIds)
  }

  /** The search filter is on exactly for a non-empty search string. */
  lemma SearchFilterOn(search: string, filterUserId: int, filterCategoryIds: seq<int>)
    ensures NameContains(Trim(Lower(search))) in ActiveCriteria(search, filterUserId, filterCategoryIds) <==> search != ""
  {
    var needle := Trim(Lower(search));
    var others := ActiveCriteria("", filterUserId, filterCategoryIds);
    forall c: Criterion | c in others
      ensures !c.NameContains?
    {
    }
    if search != "" {
      assert ActiveCriteria(search, filterUserId, filterCategoryIds)[0] == NameContains(needle);
    }
  }

  /** The other filters: the user filter is on exactly for a positive id,
      the category filter exactly for a non-empty list, and no filter but
      these three is ever on. */
  lemma FiltersOn(search: string, filterUserId: int, filterCategoryIds: seq<int>)
    ensures var r := ActiveCriteria(search, filterUserId, filterCategoryIds);
      && (OwnedBy(filterUserId) in r <==> filterUserId > 0)
      && (InCategories(filterCategoryIds) in r <==> |filterCategoryIds| > 0)
      && forall c :: c in r ==>
        c == NameContains(Trim(Lower(search))) || c == OwnedBy(filterUserId) || c == InCategories(filterCategoryIds)
  {
    var n := NameContains(Trim(Lower(search)));
    CriteriaShape(n, search != "", filterUserId, filterCategoryIds);
  }

  /** `FiltersOn` for an arbitrary search criterion `n`. */
  lemma CriteriaShape(n: Criterion, searchOn: bool, filterUserId: int, filterCategoryIds: seq<int>)
    requires n.NameContains?
    ensures var r := (if searchOn then [n] else []) + UserAndCategory(filterUserId, filterCategoryIds);
      && (OwnedBy(filterUserId) in r <==> filterUserId > 0)
      && (InCategories(filterCategoryIds) in r <==> |filterCategoryIds| > 0)
      && forall c :: c in r ==> c == n || c == OwnedBy(filterUserId) || c == InCategories(filterCategoryIds)
  {
  }

  /** A row passes the active filters exactly when it passes each one that
      is on: its lower-cased name contains the trimmed, lower-cased search
      text; its user is the selected one, where 0 and every negative id
      (the sentinel -1 among them) select every user; its category is one
      of the selected ones. */
  lemma SelectedIff(row: ProductRow, search: string, filterUserId: int, filterCategoryIds: seq<int>)
    ensures PassesAll(row, ActiveCriteria(search, filterUserId, filterCategoryIds)) <==>
      && (search != "" ==> Contains(Lower(row.name), Trim(Lower(search))))
      && (filterUserId > 0 ==> row.user.id == filterUserId)
      && (|filterCategoryIds| > 0 ==> row.category.id in filterCategoryIds)
  {
    var s := if search != "" then [NameContains(Trim(Lower(search)))] else [];
    var u := if filterUserId != 0 && filterUserId > -1 then [OwnedBy(filterUserId)] else [];
    var c := if |filterCategoryIds| > 0 then [InCategories(filterCategoryIds)] else [];
    PassesAllConcat(row, s, u + c);
    PassesAllConcat(row, u, c);
    assert PassesAll(row, s) <==> (search != "" ==> Contains(Lower(row.name), Trim(Lower(search)))) by {
      if search != "" {
        assert s[0] == NameContains(Trim(Lower(search)));
      }
    }
    assert PassesAll(row, u) <==> (filterUserId > 0 ==> row.user.id == filterUserId) by {
      if filterUserId > 0 {
        assert u[0] == OwnedBy(filterUserId);
      }
    }
    assert PassesAll(row, c) <==> (|filterCategoryIds| > 0 ==> row.category.id in filterCategoryIds) by {
      if |filterCategoryIds| > 0 {
        assert c[0] == InCategories(filterCategoryIds);
      }
    }
  }

  /** The comparator of the `sort` call: `localeCompare` on the product
      name, the category title or the user name for the keys `name`,
      `category` and `user`, and the difference of the ids for every other
      key, whose sign is that of ascending id order. */
  function Compare(sortBy: string, locale: (string, string) -> int, a: ProductRow, b: ProductRow): (d: int)
    ensures IsTextKey(sortBy) ==> d == locale(ColumnText(sortBy, a), ColumnText(sortBy, b))
    ensures !IsTextKey(sortBy) ==> (d < 0 <==> a.id < b.id) && (d == 0 <==> a.id == b.id)
  {
    if sortBy == "name" then locale(a.name, b.name)
    else if sortBy == "category" then locale(a.category.title, b.category.title)
    else if sortBy == "user" then locale(a.user.name, b.user.name)
    else a.id - b.id
  }

  function Order(sortBy: string, locale: (string, string) -> int): (ProductRow, ProductRow) -> int {
    (a, b) => Compare(sortBy, locale, a, b)
  }

  /** The key names whose comparator goes through `localeCompare`. */
  predicate IsTextKey(sortBy: string) {
    sortBy == "name" || sortBy == "category" || sortBy == "user"
  }

  /** The text column a text key sorts on: the product name, the category
      title or the user name. */
  function ColumnText(sortBy: string, row: ProductRow): string
    requires IsTextKey(sortBy)
  {
    match sortBy
    case "name" => row.name
    case "category" => row.category.title
    case _ => row.user.name
  }

  /** Every column comparator is consistent when `localeCompare` is; the
      id comparator always is. */
  lemma OrderConsistent(sortBy: string, locale: (string, string) -> int)
    requires IsTextKey(sortBy) ==> Consistent(locale)
    ensures Consistent(Order(sortBy, locale))
  {
    var cmp := Order(sortBy, locale);
    forall a, b
      ensures AntisymmetricAt(cmp, a, b)
    {
      if sortBy == "name" {
        assert AntisymmetricAt(locale, a.name, b.name);
      } else if sortBy == "category" {
        assert AntisymmetricAt(locale, a.category.title, b.category.title);
      } else if sortBy == "user" {
        assert AntisymmetricAt(locale, a.user.name, b.user.name);
      }
    }
    forall a, b, c
      ensures TransitiveAt(cmp, a, b, c)
    {
      if sortBy == "name" {
        assert TransitiveAt(locale, a.name, b.name, c.name);
      } else if sortBy == "category" {
        assert TransitiveAt(locale, a.category.title, b.category.title, c.category.title);
      } else if sortBy == "user" {
        assert TransitiveAt(locale, a.user.name, b.user.name, c.user.name);
      }
    }
  }

  /** `prepareProducts(products, search, filterUserId, filterCategoryIds,
      sortBy, sortOrder)`, with `localeCompare` passed in as `locale`. The
      result holds exactly the rows that pass the active filters, each as
      often as in the input. */
  function Prepare(rows: seq<ProductRow>, search: string, filterUserId: int, filterCategoryIds: seq<int>,
                   sortBy: string, sortOrder: string, locale: (string, string) -> int): (r: seq<ProductRow>)
    ensures multiset(r) == multiset(FilterRows(rows, ActiveCriteria(search, filterUserId, filterCategoryIds)))
    ensures forall row :: row in r <==> row in rows && PassesAll(row, ActiveCriteria(search, filterUserId, filterCategoryIds))
  {
    var active := ActiveCriteria(search, filterUserId, filterCategoryIds);
    var filtered := Stages(rows, active);
    var sorted := if sortBy != "" then Sort(filtered, Order(sortBy, locale)) else filtered;
    var r := if sortOrder == "desk" then Reverse(sorted) else sorted;
    forall row
      ensures row in r <==> row in rows && PassesAll(row, active)
    {
      assert row in r <==> row in multiset(r);
      FilterRowsMember(rows, active, row);
    }
    r
  }

  /** With no filter on, no sort key and no descending order, the products
      come back as given. */
  lemma NothingActiveIsIdentity(rows: seq<ProductRow>, filterUserId: int, sortOrder: string,
                                locale: (string, string) -> int)
    requires filterUserId <= 0 && sortOrder != "desk"
    ensures Prepare(rows, "", filterUserId, [], "", sortOrder, locale) == rows
  {
    FilterRowsKeepsAll(rows, []);
  }

  /** The empty string occurs in every name, so a search made only of white
      space keeps every product, like no search at all. */
  lemma BlankSearchKeepsAll(rows: seq<ProductRow>, search: string, filterUserId: int, filterCategoryIds: seq<int>,
                            sortBy: string, sortOrder: string, locale: (string, string) -> int)
    requires AllSpace(search)
    ensures Prepare(rows, search, filterUserId, filterCategoryIds, sortBy, sortOrder, locale)
         == Prepare(rows, "", filterUserId, filterCategoryIds, sortBy, sortOrder, locale)
  {
    LowerIdempotent(search);
    assert Trim(Lower(search)) == [];
    forall i | 0 <= i < |rows|
      ensures PassesAll(rows[i], ActiveCriteria(search, filterUserId, filterCategoryIds))
          <==> PassesAll(rows[i], ActiveCriteria("", filterUserId, filterCategoryIds))
    {
      assert OccursAt(Lower(rows[i].name), [], 0);
      SelectedIff(rows[i], search, filterUserId, filterCategoryIds);
      SelectedIff(rows[i], "", filterUserId, filterCategoryIds);
    }
    FilterRowsAgree(rows, ActiveCriteria(search, filterUserId, filterCategoryIds),
                    ActiveCriteria("", filterUserId, filterCategoryIds));
  }

  /** `sortOrder === 'desk'` gives exactly the reverse of what any other
      order gives for the same inputs, with or without a sort key. */
  lemma DescendingIsReverse(rows: seq<ProductRow>, search: string, filterUserId: int, filterCategoryIds: seq<int>,
                            sortBy: string, sortOrder: string, locale: (string, string) -> int)
    requires sortOrder != "desk"
    ensures Prepare(rows, search, filterUserId, filterCategoryIds, sortBy, "desk", locale)
         == Reverse(Prepare(rows, search, filterUserId, filterCategoryIds, sortBy, sortOrder, locale))
  {
  }

  /** Without a sort key the survivors keep their input order (reversed for
      'desk'). */
  lemma UnsortedKeepsInputOrder(rows: seq<ProductRow>, search: string, filterUserId: int, filterCategoryIds: seq<int>,
                                sortOrder: string, locale: (string, string) -> int)
    ensures var r := Prepare(rows, search, filterUserId, filterCategoryIds, "", sortOrder, locale);
      IsSubsequence(if sortOrder == "desk" then Reverse(r) else r, rows)
  {
    var r := Prepare(rows, search, filterUserId, filterCategoryIds, "", sortOrder, locale);
    ReverseInvolutive(Stages(rows, ActiveCriteria(search, filterUserId, filterCategoryIds)));
  }

  /** With a sort key the result is the stable sort of the survivors under
      the column comparator: ordered, and products the comparator ties keep
      their input order. 'desk' reverses it. */
  lemma SortedBySelectedColumn(rows: seq<ProductRow>, search: string, filterUserId: int, filterCategoryIds: seq<int>,
                               sortBy: string, sortOrder: string, locale: (string, string) -> int)
    requires sortBy != "" && (IsTextKey(sortBy) ==> Consistent(locale))
    ensures var r := Prepare(rows, search, filterUserId, filterCategoryIds, sortBy, sortOrder, locale);
      && (sortOrder != "desk" ==> Sorted(r, Order(sortBy, locale)))
      && (sortOrder == "desk" ==> SortedDescending(r, Order(sortBy, locale)))
    ensures var r := Prepare(rows, search, filterUserId, filterCategoryIds, sortBy, sortOrder, locale);
      var survivors := FilterRows(rows, ActiveCriteria(search, filterUserId, filterCategoryIds));
      sortOrder != "desk" ==> forall x :: Ties(r, x, Order(sortBy, locale)) == Ties(survivors, x, Order(sortBy, locale))
  {
    var cmp := Order(sortBy, locale);
    var survivors := FilterRows(rows, ActiveCriteria(search, filterUserId, filterCategoryIds));
    OrderConsistent(sortBy, locale);
    SortOrderedAndStable(survivors, cmp);
    ReverseSorted(Sort(survivors, cmp), cmp);
  }

  /** The sorted result is the only arrangement of the survivors that is
      ordered by the column comparator and keeps tied products in input
      order (that it is one such arrangement is `SortedBySelectedColumn`). */
  lemma SortedResultCharacterized(rows: seq<ProductRow>, search: string, filterUserId: int, filterCategoryIds: seq<int>,
                                  sortBy: string, sortOrder: string, locale: (string, string) -> int, t: seq<ProductRow>)
    requires sortBy != "" && sortOrder != "desk" && (IsTextKey(sortBy) ==> Consistent(locale))
    ensures var survivors := FilterRows(rows, ActiveCriteria(search, filterUserId, filterCategoryIds));
      Sorted(t, Order(sortBy, locale)) && (forall x :: Ties(t, x, Order(sortBy, locale)) == Ties(survivors, x, Order(sortBy, locale)))
      ==> t == Prepare(rows, search, filterUserId, filterCategoryIds, sortBy, sortOrder, locale)
  {
    var survivors := FilterRows(rows, ActiveCriteria(search, filterUserId, filterCategoryIds));
    OrderConsistent(sortBy, locale);
    SortCharacterized(survivors, t, Order(sortBy, locale));
  }

  /** Every key other than `name`, `category` and `user` -- `id` and
      `product`, the keys the column headers send, among them -- sorts by
      ascending product id. */
  lemma OtherKeysSortById(rows: seq<ProductRow>, search: string, filterUserId: int, filterCategoryIds: seq<int>,
                          sortBy: string, sortOrder: string, locale: (string, string) -> int)
    requires sortBy != "" && !IsTextKey(sortBy)
    ensures Prepare(rows, search, filterUserId, filterCategoryIds, sortBy, sortOrder, locale)
         == Prepare(rows, search, filterUserId, filterCategoryIds, "id", sortOrder, locale)
    ensures var r := Prepare(rows, search, filterUserId, filterCategoryIds, sortBy, sortOrder, locale);
      sortOrder != "desk" ==> forall i, j :: 0 <= i < j < |r| ==> r[i].id <= r[j].id
  {
    var survivors := FilterRows(rows, ActiveCriteria(search, filterUserId, filterCategoryIds));
    SortAgrees(survivors, Order(sortBy, locale), Order("id", locale));
    OrderConsistent(sortBy, locale);
    SortSorted(survivors, Order(sortBy, locale));
  }

  /** Preparing an already prepared (ascending or unsorted) list again with
      the same settings changes nothing: every row passes the filters again
      and the stable sort leaves an ordered sequence as it is. */
  lemma PrepareIdempotent(rows: seq<ProductRow>, search: string, filterUserId: int, filterCategoryIds: seq<int>,
                          sortBy: string, sortOrder: string, locale: (string, string) -> int)
    requires sortOrder != "desk" && (IsTextKey(sortBy) ==> Consistent(locale))
    ensures var r := Prepare(rows, search, filterUserId, filterCategoryIds, sortBy, sortOrder, locale);
      Prepare(r, search, filterUserId, filterCategoryIds, sortBy, sortOrder, locale) == r
  {
    var active := ActiveCriteria(search, filterUserId, filterCategoryIds);
    var r := Prepare(rows, search, filterUserId, filterCategoryIds, sortBy, sortOrder, locale);
    forall i | 0 <= i < |r|
      ensures PassesAll(r[i], active)
    {
      assert r[i] in r;
    }
    FilterRowsKeepsAll(r, active);
    if sortBy != "" {
      OrderConsistent(sortBy, locale);
      SortSorted(FilterRows(rows, active), Order(sortBy, locale));
      SortIdempotent(r, Order(sortBy, locale));
    }
  }
}

=== FILE: scenarios.dfy ===
/** Worked cases of the search filter on two products. */
module Scenarios {
  import opened Text
  import opened Catalog
  import opened Pipeline

  /** The search string "app" is its own needle. */
  lemma NeedleOfApp()
    ensures Trim(Lower("app")) == "app"
  {
    assert Lower("app") == "app";
    TrimKeeps("app");
  }

  /** Searching "app" with every user and category turns on one filter. */
  lemma AppCriteria()
    ensures ActiveCriteria("app", -1, []) == [NameContains("app")]
  {
    NeedleOfApp();
    assert UserAndCategory(-1, []) == [];
  }

  lemma AppleMatches()
    ensures Contains(Lower("Apple"), "app")
  {
    assert Lower("Apple") == "apple";
    assert OccursAt("apple", "app", 0);
  }

  lemma BananaDoesNotMatch()
    ensures !Contains(Lower("banana"), "app")
  {
    assert Lower("banana") == "banana";
    assert !Contains("na", "app");
    assert "ana"[..3][1] != "app"[1];
    assert !Contains("ana", "app");
    assert "nana"[..3][0] != "app"[0];
    assert !Contains("nana", "app");
    assert "anana"[..3][1] != "app"[1];
    assert !Contains("anana", "app");
    assert "banana"[..3][0] != "app"[0];
  }

  /** Without a sort key or order, `prepareProducts` is the filter pass. */
  lemma PlainIsFilter(rows: seq<ProductRow>, search: string, locale: (string, string) -> int)
    ensures Prepare(rows, search, -1, [], "", "", locale) == FilterRows(rows, ActiveCriteria(search, -1, []))
  {
  }

  /** The filter pass on the two products keeps "Apple" only. */
  lemma FilterExample(apple: ProductRow, banana: ProductRow)
    requires apple.name == "Apple" && banana.name == "banana"
    ensures FilterRows([apple, banana], [NameContains("app")]) == [apple]
  {
    var cs := [NameContains("app")];
    AppleMatches();
    BananaDoesNotMatch();
    assert PassesAll(apple, cs);
    assert !Passes(banana, cs[0]);
    assert FilterRows([banana], cs) == [] by {
      assert [banana][1..] == [];
    }
    assert [apple, banana][1..] == [banana];
  }

  /** Searching "app" among "Apple" and "banana" keeps only "Apple": the
      name is lower-cased before the containment test. */
  lemma SearchExample(locale: (string, string) -> int)
    ensures var owner := User(100, "Max", Male);
      var fruit := Category(10, "Fruit", "x", 100);
      var apple := ProductRow(1, "Apple", 10, owner, fruit);
      var banana := ProductRow(2, "banana", 10, owner, fruit);
      Prepare([apple, banana], "app", -1, [], "", "", locale) == [apple]
  {
    var owner := User(100, "Max", Male);
    var fruit := Category(10, "Fruit", "x", 100);
    var apple := ProductRow(1, "Apple", 10, owner, fruit);
    var banana := ProductRow(2, "banana", 10, owner, fruit);
    AppCriteria();
    PlainIsFilter([apple, banana], "app", locale);
    FilterExample(apple, banana);
  }
}

=== FILE: sequences.dfy ===
/** Sequence operations the program takes from JavaScript arrays:
    `indexOf`, `splice(k, 1)`, `reverse`, and the subsequence relation that
    `filter` establishes. */
module Sequences {
  import opened Wrappers

  /** `k` is the position of the first occurrence of `x` in `s`. */
  ghost predicate IsFirstIndex<T>(s: seq<T>, x: T, k: int) {
    0 <= k < |s| && s[k] == x && x !in s[..k]
  }

  /** The position of the first occurrence of `x` in `s`, if any
      (`Array.prototype.indexOf`, with `None` for -1). */
  function IndexOf<T(==)>(s: seq<T>, x: T): (r: Option<nat>)
    ensures r.None? <==> x !in s
    ensures r.Some? ==> IsFirstIndex(s, x, r.value)
  {
    if s == [] then None
    else if s[0] == x then Some(0)
    else match IndexOf(s[1..], x)
      case None => None
      case Some(k) =>
        assert s[..k + 1] == [s[0]] + s[1..][..k];
        Some(k + 1)
  }

  /** `s` with the element at position `k` taken out (`splice(k, 1)`). */
  function RemoveAt<T>(s: seq<T>, k: nat): (r: seq<T>)
    requires k < |s|
    ensures |r| == |s| - 1
    ensures forall i :: 0 <= i < k ==> r[i] == s[i]
    ensures forall i :: k <= i < |r| ==> r[i] == s[i + 1]
  {
    s[..k] + s[k + 1..]
  }

  /** `s` in the opposite order (`Array.prototype.reverse`). */
  function Reverse<T>(s: seq<T>): (r: seq<T>)
    ensures |r| == |s|
    ensures forall i :: 0 <= i < |s| ==> r[i] == s[|s| - 1 - i]
    ensures multiset(r) == multiset(s)
  {
    if s == [] then []
    else
      assert s == [s[0]] + s[1..];
      Reverse(s[1..]) + [s[0]]
  }

  /** Reversing twice gives back the original sequence. */
  lemma ReverseInvolutive<T>(s: seq<T>)
    ensures Reverse(Reverse(s)) == s
  {
  }

  /** `s` with every occurrence of `x` dropped, the rest in order. */
  function Without<T(==)>(s: seq<T>, x: T): (r: seq<T>)
    ensures |r| <= |s|
    ensures forall i :: 0 <= i < |r| ==> r[i] != x
  {
    if s == [] then []
    else (if s[0] == x then [] else [s[0]]) + Without(s[1..], x)
  }

  lemma {:induction false} WithoutConcat<T>(a: seq<T>, b: seq<T>, x: T)
    ensures Without(a + b, x) == Without(a, x) + Without(b, x)
  {
    if a == [] {
      assert a + b == b;
    } else {
      assert (a + b)[0] == a[0];
      assert (a + b)[1..] == a[1..] + b;
      WithoutConcat(a[1..], b, x);
    }
  }

  lemma WithoutSkips<T>(a: seq<T>, x: T, b: seq<T>)
    ensures Without(a + [x] + b, x) == Without(a + b, x)
  {
    assert [x][1..] == [];
    WithoutConcat(a + [x], b, x);
    WithoutConcat(a, [x], x);
    WithoutConcat(a, b, x);
  }

  /** `s` is the part before `k`, the element at `k`, and the part after. */
  lemma SplitAt<T>(s: seq<T>, k: nat)
    requires k < |s|
    ensures s == s[..k] + [s[k]] + s[k + 1..]
  {
  }

  /** Taking out one occurrence of `x` removes one copy of it... */
  lemma RemoveAtCount<T>(s: seq<T>, k: nat)
    requires k < |s|
    ensures multiset(RemoveAt(s, k)) == multiset(s) - multiset{s[k]}
  {
    assert s == s[..k] + [s[k]] + s[k + 1..];
  }

  /** ...and leaves the other elements in order. */
  lemma RemoveAtWithout<T>(s: seq<T>, k: nat)
    requires k < |s|
    ensures Without(RemoveAt(s, k), s[k]) == Without(s, s[k])
  {
    var x, a, b := s[k], s[..k], s[k + 1..];
    calc {
      Without(RemoveAt(s, k), x);
    == { assert RemoveAt(s, k) == a + b; }
      Without(a + b, x);
    == { WithoutSkips(a, x, b); }
      Without(a + [x] + b, x);
    == { SplitAt(s, k); }
      Without(s, x);
    }
  }

  /** No value occurs twice in `s`. */
  predicate NoDuplicates<T(==)>(s: seq<T>) {
    forall i, j :: 0 <= i < j < |s| ==> s[i] != s[j]
  }

  /** On a list without repeats, `splice(k, 1)` removes the value at `k`
      entirely and keeps the list free of repeats. */
  lemma RemoveAtDropsValue<T>(s: seq<T>, k: nat)
    requires k < |s| && NoDuplicates(s)
    ensures s[k] !in RemoveAt(s, k)
    ensures NoDuplicates(RemoveAt(s, k))
  {
    var r := RemoveAt(s, k);
    forall i | 0 <= i < |r|
      ensures r[i] != s[k]
    {
      if i >= k {
        assert r[i] == s[i + 1];
      }
    }
  }

  /** `splice(k, 1)` keeps every value other than the one at `k`. */
  lemma RemoveAtKeepsOthers<T>(s: seq<T>, k: nat, x: T)
    requires k < |s| && x != s[k]
    ensures x in RemoveAt(s, k) <==> x in s
  {
    var r := RemoveAt(s, k);
    if x in s {
      var j :| 0 <= j < |s| && s[j] == x;
      if j < k {
        assert r[j] == x;
      } else {
        assert r[j - 1] == x;
      }
    }
  }

  /** `r` is obtained from `s` by deleting elements, keeping the order of
      the remaining ones. */
  ghost predicate IsSubsequence<T>(r: seq<T>, s: seq<T>)
    decreases |s|
  {
    r == [] || (s != [] && ((r[0] == s[0] && IsSubsequence(r[1..], s[1..])) || IsSubsequence(r, s[1..])))
  }
}

=== FILE: sorting.dfy ===
/** `Array.prototype.sort` with a comparator: a stable sort driven by an
    integer-valued comparison (negative: first argument goes first; zero:
    keep the input order; positive: second argument goes first). With a
    consistent comparator the result is the unique sorted, stable
    permutation of the input, so a stable insertion sort stands for the
    engine's algorithm. */
module Sorting {
  import opened Sequences

  /** `cmp` orders `a` before `b` exactly when it orders `b` after `a`. */
  ghost predicate AntisymmetricAt<T>(cmp: (T, T) -> int, a: T, b: T) {
    cmp(a, b) < 0 <==> cmp(b, a) > 0
  }

  /** If `a` goes no later than `b` and `b` no later than `c`, then `a` goes
      no later than `c`. */
  ghost predicate TransitiveAt<T>(cmp: (T, T) -> int, a: T, b: T, c: T) {
    cmp(a, b) <= 0 && cmp(b, c) <= 0 ==> cmp(a, c) <= 0
  }

  /** What the language standard calls a consistent comparator: its sign is
      antisymmetric and "goes no later than" is transitive. The quantifiers
      are instantiated on purpose, through the lemmas below. */
  ghost predicate Consistent<T(!new)>(cmp: (T, T) -> int) {
    && (forall a, b :: AntisymmetricAt(cmp, a, b))
    && (forall a, b, c :: TransitiveAt(cmp, a, b, c))
  }

  lemma Flip<T(!new)>(cmp: (T, T) -> int, a: T, b: T)
    requires Consistent(cmp)
    ensures cmp(a, b) > 0 ==> cmp(b, a) < 0
    ensures cmp(a, b) < 0 ==> cmp(b, a) > 0
    ensures cmp(a, b) == 0 ==> cmp(b, a) == 0
  {
    assert AntisymmetricAt(cmp, a, b);
    assert AntisymmetricAt(cmp, b, a);
  }

  lemma Trans<T(!new)>(cmp: (T, T) -> int, a: T, b: T, c: T)
    requires Consistent(cmp) && cmp(a, b) <= 0 && cmp(b, c) <= 0
    ensures cmp(a, c) <= 0
  {
    assert TransitiveAt(cmp, a, b, c);
  }

  /** Every element goes no later than every element after it. */
  ghost predicate Sorted<T>(s: seq<T>, cmp: (T, T) -> int) {
    forall i, j :: 0 <= i < j < |s| ==> cmp(s[i], s[j]) <= 0
  }

  /** Every element goes no earlier than every element after it. */
  ghost predicate SortedDescending<T>(s: seq<T>, cmp: (T, T) -> int) {
    forall i, j :: 0 <= i < j < |s| ==> cmp(s[j], s[i]) <= 0
  }

  /** The elements of `s` the comparator ties with `x`, in their order in `s`. */
  function Ties<T>(s: seq<T>, x: T, cmp: (T, T) -> int): (r: seq<T>)
    ensures |r| <= |s|
  {
    if s == [] then []
    else (if cmp(s[0], x) == 0 then [s[0]] else []) + Ties(s[1..], x, cmp)
  }

  /** The tie group of `x` holds exactly the elements of `s` tied with `x`. */
  lemma {:induction false} TiesMember<T>(s: seq<T>, x: T, cmp: (T, T) -> int, e: T)
    ensures e in Ties(s, x, cmp) <==> e in s && cmp(e, x) == 0
  {
    if s != [] {
      TiesMember(s[1..], x, cmp, e);
      assert s == [s[0]] + s[1..];
    }
  }

  /** Puts `x` in front of the first element it goes no later than. */
  function Insert<T>(x: T, s: seq<T>, cmp: (T, T) -> int): (r: seq<T>)
    ensures multiset(r) == multiset{x} + multiset(s)
  {
    if s == [] || cmp(x, s[0]) <= 0 then [x] + s
    else
      assert s == [s[0]] + s[1..];
      [s[0]] + Insert(x, s[1..], cmp)
  }

  /** Stable insertion sort. */
  function Sort<T>(s: seq<T>, cmp: (T, T) -> int): (r: seq<T>)
    ensures multiset(r) == multiset(s)
  {
    if s == [] then []
    else
      assert s == [s[0]] + s[1..];
      Insert(s[0], Sort(s[1..], cmp), cmp)
  }

  lemma Reflexive<T(!new)>(cmp: (T, T) -> int, a: T)
    requires Consistent(cmp)
    ensures cmp(a, a) == 0
  {
    assert AntisymmetricAt(cmp, a, a);
  }

  /** The head of a sorted sequence goes no later than any of its elements. */
  lemma {:induction false} HeadFirst<T(!new)>(s: seq<T>, e: T, cmp: (T, T) -> int)
    requires Consistent(cmp) && Sorted(s, cmp) && e in s
    ensures cmp(s[0], e) <= 0
  {
    var k :| 0 <= k < |s| && s[k] == e;
    if k == 0 {
      Reflexive(cmp, e);
    }
  }

  lemma {:induction false} InsertSorted<T(!new)>(x: T, s: seq<T>, cmp: (T, T) -> int)
    requires Consistent(cmp) && Sorted(s, cmp)
    ensures Sorted(Insert(x, s, cmp), cmp)
  {
    if s == [] || cmp(x, s[0]) <= 0 {
      var r := [x] + s;
      forall i, j | 0 <= i < j < |r|
        ensures cmp(r[i], r[j]) <= 0
      {
        if i == 0 && j > 1 {
          Trans(cmp, x, s[0], s[j - 1]);
        }
      }
    } else {
      var t := Insert(x, s[1..], cmp);
      InsertSorted(x, s[1..], cmp);
      Flip(cmp, x, s[0]);
      var r := [s[0]] + t;
      forall i, j | 0 <= i < j < |r|
        ensures cmp(r[i], r[j]) <= 0
      {
        if i == 0 {
          assert t[j - 1] in multiset(t);
          if t[j - 1] != x {
            assert t[j - 1] in s[1..];
            HeadFirst(s, t[j - 1], cmp);
          }
        }
      }
    }
  }

  /** The sort puts its output in order. */
  lemma {:induction false} SortSorted<T(!new)>(s: seq<T>, cmp: (T, T) -> int)
    requires Consistent(cmp)
    ensures Sorted(Sort(s, cmp), cmp)
  {
    if s != [] {
      SortSorted(s[1..], cmp);
      InsertSorted(s[0], Sort(s[1..], cmp), cmp);
    }
  }

  lemma TiesCons<T>(a: T, q: seq<T>, x: T, cmp: (T, T) -> int)
    ensures Ties([a] + q, x, cmp) == (if cmp(a, x) == 0 then [a] else []) + Ties(q, x, cmp)
  {
    assert ([a] + q)[1..] == q;
  }

  /** Putting `a` in front of two sequences whose tie groups differ by a
      leading `y` keeps them differing by that `y`, as long as `a` and `y`
      are not both tied with `x`. */
  lemma TiesStep<T>(a: T, y: T, p: seq<T>, q: seq<T>, x: T, cmp: (T, T) -> int)
    requires !(cmp(a, x) == 0 && cmp(y, x) == 0)
    requires Ties(p, x, cmp) == (if cmp(y, x) == 0 then [y] else []) + Ties(q, x, cmp)
    ensures Ties([a] + p, x, cmp) == (if cmp(y, x) == 0 then [y] else []) + Ties([a] + q, x, cmp)
  {
    TiesCons(a, p, x, cmp);
    TiesCons(a, q, x, cmp);
    if cmp(a, x) == 0 {
      assert [] + Ties(q, x, cmp) == Ties(q, x, cmp);
    } else {
      assert [] + Ties(p, x, cmp) == Ties(p, x, cmp);
      assert [] + Ties(q, x, cmp) == Ties(q, x, cmp);
    }
  }

  /** Inserting `y` adds it to the front of the elements tied with it and
      leaves every other tie group as it was. */
  lemma {:induction false} InsertTies<T(!new)>(y: T, s: seq<T>, x: T, cmp: (T, T) -> int)
    requires Consistent(cmp)
    ensures Ties(Insert(y, s, cmp), x, cmp) == (if cmp(y, x) == 0 then [y] else []) + Ties(s, x, cmp)
  {
    if s == [] || cmp(y, s[0]) <= 0 {
      assert ([y] + s)[1..] == s;
    } else {
      var rest := Insert(y, s[1..], cmp);
      assert Insert(y, s, cmp) == [s[0]] + rest;
      assert [s[0]] + s[1..] == s;
      InsertTies(y, s[1..], x, cmp);
      if cmp(s[0], x) == 0 && cmp(y, x) == 0 {
        Flip(cmp, s[0], x);
        Trans(cmp, y, x, s[0]);
        assert false;
      }
      TiesStep(s[0], y, rest, s[1..], x, cmp);
    }
  }

  /** The sort is stable: elements it ties keep their input order. */
  lemma {:induction false} SortStable<T(!new)>(s: seq<T>, x: T, cmp: (T, T) -> int)
    requires Consistent(cmp)
    ensures Ties(Sort(s, cmp), x, cmp) == Ties(s, x, cmp)
  {
    if s != [] {
      SortStable(s[1..], x, cmp);
      InsertTies(s[0], Sort(s[1..], cmp), x, cmp);
    }
  }

  /** Two sorted sequences that agree on the tie groups of both their heads
      start with the same element. */
  lemma SameHead<T(!new)>(r: seq<T>, t: seq<T>, cmp: (T, T) -> int)
    requires Consistent(cmp) && Sorted(r, cmp) && Sorted(t, cmp) && r != [] && t != []
    requires Ties(r, r[0], cmp) == Ties(t, r[0], cmp)
    requires Ties(r, t[0], cmp) == Ties(t, t[0], cmp)
    ensures r[0] == t[0]
  {
    var a, b := r[0], t[0];
    Reflexive(cmp, a);
    Reflexive(cmp, b);
    TiesMember(r, a, cmp, a);
    TiesMember(t, a, cmp, a);
    HeadFirst(t, a, cmp);
    TiesMember(t, b, cmp, b);
    TiesMember(r, b, cmp, b);
    HeadFirst(r, b, cmp);
    Flip(cmp, a, b);
    assert Ties(r, a, cmp)[0] == a;
    assert Ties(t, a, cmp)[0] == b;
  }

  /** Two sorted sequences with the same tie groups are equal. */
  lemma {:induction false} SortedUnique<T(!new)>(r: seq<T>, t: seq<T>, cmp: (T, T) -> int)
    requires Consistent(cmp) && Sorted(r, cmp) && Sorted(t, cmp)
    requires forall x :: Ties(r, x, cmp) == Ties(t, x, cmp)
    ensures r == t
    decreases |r|
  {
    if r == [] || t == [] {
      var u := if r == [] then t else r;
      if u != [] {
        Reflexive(cmp, u[0]);
        TiesMember(u, u[0], cmp, u[0]);
      }
    } else {
      assert Ties(r, r[0], cmp) == Ties(t, r[0], cmp);
      assert Ties(r, t[0], cmp) == Ties(t, t[0], cmp);
      SameHead(r, t, cmp);
      forall x
        ensures Ties(r[1..], x, cmp) == Ties(t[1..], x, cmp)
      {
        var h := if cmp(r[0], x) == 0 then [r[0]] else [];
        assert Ties(r, x, cmp) == h + Ties(r[1..], x, cmp);
        assert Ties(t, x, cmp) == h + Ties(t[1..], x, cmp);
        assert Ties(r, x, cmp) == Ties(t, x, cmp);
        assert Ties(r[1..], x, cmp) == Ties(r, x, cmp)[|h|..];
      }
      SortedUnique(r[1..], t[1..], cmp);
      assert r == [r[0]] + r[1..];
      assert t == [t[0]] + t[1..];
    }
  }

  /** The sort's output is in order and keeps every tie group in input order. */
  lemma SortOrderedAndStable<T(!new)>(s: seq<T>, cmp: (T, T) -> int)
    requires Consistent(cmp)
    ensures Sorted(Sort(s, cmp), cmp)
    ensures forall x :: Ties(Sort(s, cmp), x, cmp) == Ties(s, x, cmp)
  {
    SortSorted(s, cmp);
    forall x
      ensures Ties(Sort(s, cmp), x, cmp) == Ties(s, x, cmp)
    {
      SortStable(s, x, cmp);
    }
  }

  /** The sort's output is the one sequence that is in order and keeps each
      tie group in input order. */
  lemma SortCharacterized<T(!new)>(s: seq<T>, t: seq<T>, cmp: (T, T) -> int)
    requires Consistent(cmp)
    ensures t == Sort(s, cmp) ==> Sorted(t, cmp)
    ensures t == Sort(s, cmp) ==> forall x :: Ties(t, x, cmp) == Ties(s, x, cmp)
    ensures Sorted(t, cmp) && (forall x :: Ties(t, x, cmp) == Ties(s, x, cmp)) ==> t == Sort(s, cmp)
  {
    SortOrderedAndStable(s, cmp);
    if Sorted(t, cmp) && forall x :: Ties(t, x, cmp) == Ties(s, x, cmp) {
      SortedUnique(t, Sort(s, cmp), cmp);
    }
  }

  /** Sorting a sequence that is already in order leaves it unchanged. */
  lemma {:induction false} SortIdempotent<T>(s: seq<T>, cmp: (T, T) -> int)
    requires Sorted(s, cmp)
    ensures Sort(s, cmp) == s
  {
    if s != [] {
      SortIdempotent(s[1..], cmp);
      assert s == [s[0]] + s[1..];
    }
  }

  /** Comparators that agree on every pair give the same sort. */
  lemma {:induction false} SortAgrees<T>(s: seq<T>, cmp1: (T, T) -> int, cmp2: (T, T) -> int)
    requires forall a, b :: cmp1(a, b) == cmp2(a, b)
    ensures Sort(s, cmp1) == Sort(s, cmp2)
  {
    if s != [] {
      SortAgrees(s[1..], cmp1, cmp2);
      InsertAgrees(s[0], Sort(s[1..], cmp1), cmp1, cmp2);
    }
  }

  lemma {:induction false} InsertAgrees<T>(x: T, s: seq<T>, cmp1: (T, T) -> int, cmp2: (T, T) -> int)
    requires forall a, b :: cmp1(a, b) == cmp2(a, b)
    ensures Insert(x, s, cmp1) == Insert(x, s, cmp2)
  {
    if s != [] {
      InsertAgrees(x, s[1..], cmp1, cmp2);
    }
  }

  /** Reversing an ascending sequence makes it descending. */
  lemma ReverseSorted<T>(s: seq<T>, cmp: (T, T) -> int)
    requires Sorted(s, cmp)
    ensures SortedDescending(Reverse(s), cmp)
  {
  }
}

=== FILE: text.dfy ===
/** The string operations of the search filter: `toLowerCase`, `trim` and
    `includes`. */
module Text {

  /** The characters `String.prototype.trim` removes: the ECMAScript
      WhiteSpace and LineTerminator code points. */
  predicate IsSpace(c: char) {
    var n := c as int;
    n == 0x09 || n == 0x0A || n == 0x0B || n == 0x0C || n == 0x0D || n == 0x20
    || n == 0xA0 || n == 0x1680 || (0x2000 <= n <= 0x200A) || n == 0x2028
    || n == 0x2029 || n == 0x202F || n == 0x205F || n == 0x3000 || n == 0xFEFF
  }

  predicate AllSpace(s: string) {
    forall i :: 0 <= i < |s| ==> IsSpace(s[i])
  }

  predicate IsUpper(c: char) {
    'A' <= c <= 'Z'
  }

  /** Lower-case mapping of one character, restricted to ASCII letters. */
  function LowerChar(c: char): (d: char)
    ensures !IsUpper(d)
    ensures !IsUpper(c) ==> d == c
    ensures IsUpper(c) ==> d as int == c as int + 32
  {
    if IsUpper(c) then (c as int + 32) as char else c
  }

  /** `String.prototype.toLowerCase`, character by character. */
  function Lower(s: string): (r: string)
    ensures |r| == |s|
    ensures forall i :: 0 <= i < |s| ==> r[i] == LowerChar(s[i])
  {
    seq(|s|, i requires 0 <= i < |s| => LowerChar(s[i]))
  }

  /** Lower-casing an already lower-cased string changes nothing, and it
      never touches white space. */
  lemma LowerIdempotent(s: string)
    ensures Lower(Lower(s)) == Lower(s)
    ensures AllSpace(s) ==> Lower(s) == s
  {
  }

  /** Number of white-space characters at the start of `s`. */
  function LeadingSpaces(s: string): (n: nat)
    ensures n <= |s|
    ensures AllSpace(s[..n])
    ensures n < |s| ==> !IsSpace(s[n])
  {
    if s != [] && IsSpace(s[0]) then
      var m := LeadingSpaces(s[1..]);
      m + 1
    else 0
  }

  /** Number of white-space characters at the end of `s`. */
  function TrailingSpaces(s: string): (n: nat)
    ensures n <= |s|
    ensures AllSpace(s[|s| - n..])
    ensures n < |s| ==> !IsSpace(s[|s| - 1 - n])
  {
    if s != [] && IsSpace(s[|s| - 1]) then
      var m := TrailingSpaces(s[..|s| - 1]);
      m + 1
    else 0
  }

  /** `s` splits into a white-space run of length `lead`, then `r`, then a
      white-space run. */
  ghost predicate TrimSplit(s: string, r: string, lead: int) {
    0 <= lead && lead + |r| <= |s| && AllSpace(s[..lead]) && s[lead..lead + |r|] == r
    && AllSpace(s[lead + |r|..])
  }

  /** `String.prototype.trim`: `s` without its leading and trailing white
      space. */
  function Trim(s: string): (r: string)
    ensures exists lead :: TrimSplit(s, r, lead)
    ensures r == [] || (!IsSpace(r[0]) && !IsSpace(r[|r| - 1]))
    ensures r == [] <==> AllSpace(s)
  {
    var lead := LeadingSpaces(s);
    var rest := s[lead..];
    var cut := TrailingSpaces(rest);
    TrimCutSplits(s, lead, rest, cut);
    TrimCutEnds(s, lead, rest, cut);
    TrimCutEmpty(s, lead, rest, cut);
    rest[..|rest| - cut]
  }

  /** Cutting a suffix of `s` at `k` cuts `s` at `lead + k`. */
  lemma SliceOfSuffix(s: string, lead: nat, k: nat)
    requires lead <= |s| && k <= |s| - lead
    ensures s[lead..][..k] == s[lead..lead + k]
    ensures s[lead..][k..] == s[lead + k..]
  {
  }

  /** The cut `Trim` makes splits `s` into a space run, the kept part and a
      space run. */
  lemma TrimCutSplits(s: string, lead: nat, rest: string, cut: nat)
    requires lead == LeadingSpaces(s) && rest == s[lead..] && cut == TrailingSpaces(rest)
    ensures TrimSplit(s, rest[..|rest| - cut], lead)
  {
    SliceOfSuffix(s, lead, |rest| - cut);
  }

  /** The kept part starts and ends with a character other than white space. */
  lemma TrimCutEnds(s: string, lead: nat, rest: string, cut: nat)
    requires lead == LeadingSpaces(s) && rest == s[lead..] && cut == TrailingSpaces(rest)
    ensures var r := rest[..|rest| - cut];
      r == [] || (!IsSpace(r[0]) && !IsSpace(r[|r| - 1]))
  {
    var r := rest[..|rest| - cut];
    if r != [] {
      assert r[0] == s[lead];
      assert r[|r| - 1] == rest[|rest| - 1 - cut];
    }
  }

  /** The kept part is empty exactly when `s` is all white space. */
  lemma TrimCutEmpty(s: string, lead: nat, rest: string, cut: nat)
    requires lead == LeadingSpaces(s) && rest == s[lead..] && cut == TrailingSpaces(rest)
    ensures rest[..|rest| - cut] == [] <==> AllSpace(s)
  {
    assert AllSpace(s) ==> lead == |s|;
    assert lead < |s| ==> !AllSpace(rest) by {
      if lead < |s| {
        assert rest[0] == s[lead];
      }
    }
    assert cut == |rest| ==> AllSpace(rest) by {
      if cut == |rest| {
        assert rest[|rest| - cut..] == rest;
      }
    }
    assert lead == |s| ==> AllSpace(s) by {
      if lead == |s| {
        assert s[..lead] == s;
      }
    }
  }

  /** `trim` leaves a string that neither starts nor ends with white space
      as it is; in particular trimming twice equals trimming once. */
  lemma TrimKeeps(s: string)
    requires s == [] || (!IsSpace(s[0]) && !IsSpace(s[|s| - 1]))
    ensures Trim(s) == s
  {
    assert LeadingSpaces(s) == 0;
    assert s[0..] == s;
    assert TrailingSpaces(s) == 0;
  }

  lemma TrimIdempotent(s: string)
    ensures Trim(Trim(s)) == Trim(s)
  {
    TrimKeeps(Trim(s));
  }

  /** `needle` occurs in `hay` starting at position `i`. */
  ghost predicate OccursAt(hay: string, needle: string, i: int) {
    0 <= i && i + |needle| <= |hay| && hay[i..i + |needle|] == needle
  }

  /** An occurrence in the tail of `hay` is one position later in `hay`. */
  lemma OccursShift(hay: string, needle: string, j: int)
    requires hay != [] && 0 <= j
    ensures OccursAt(hay[1..], needle, j) <==> OccursAt(hay, needle, j + 1)
  {
    if j + |needle| <= |hay[1..]| {
      assert hay[1..][j..j + |needle|] == hay[j + 1..j + 1 + |needle|];
    }
  }

  /** `String.prototype.includes`: whether `needle` occurs somewhere in
      `hay` (the empty string occurs everywhere). */
  function Contains(hay: string, needle: string): (b: bool)
    ensures b <==> exists i :: OccursAt(hay, needle, i)
    decreases |hay|
  {
    if |needle| <= |hay| && hay[..|needle|] == needle then
      assert OccursAt(hay, needle, 0);
      true
    else if hay == [] then
      false
    else
      var b := Contains(hay[1..], needle);
      assert b ==> exists i :: OccursAt(hay, needle, i) by {
        if b {
          var j :| OccursAt(hay[1..], needle, j);
          OccursShift(hay, needle, j);
        }
      }
      assert (exists i :: OccursAt(hay, needle, i)) ==> b by {
        if exists i :: OccursAt(hay, needle, i) {
          var i :| OccursAt(hay, needle, i);
          assert i != 0;
          OccursShift(hay, needle, i - 1);
        }
      }
      b
  }
}

=== FILE: wrappers.dfy ===
/** Optional values and fallible results, used where the program reads a
    possibly missing record or may fail. */
module Wrappers {

  datatype Option<+T> = None | Some(value: T)

  datatype Result<+T, +E> = Success(value: T) | Failure(error: E)
}
